=== FILE: README.md ===
# command-runner in Dafny

A model of the core of the Ruby gem `command-runner`. The gem builds a
shell command line from a command name and an argument template such as
`"some {interpolation}"`. It then hands that line to an execution backend
and wraps the outcome in a `Message`.

The model covers these parts of the gem:

- **Interpolation** (`Command::Runner#interpolate`, `Runner::Messenger#interpolate`).
  - The context is normalised: every key is converted with `to_s`, and a later key wins.
  - `gsub` with `(\{{1,2})([0-9a-zA-Z_\-]+)(\}{1,2})` is modelled as a backtracking matcher (`Interpolation.MatchAt`) plus a single left-to-right replacement pass (`Interpolation.Substitute`).
  - `{key}` is replaced by the shell-escaped value and `{{key}}` by the raw value.
  - An unbound key, or a brace count that does not match, leaves the placeholder unchanged.
  - Replacement text is never rescanned.
- **Shell escaping** (`Shellwords.escape`).
  - The empty string becomes `''`.
  - `A-Za-z0-9_-.,:+/@` pass through unchanged.
  - A newline becomes `'\n'`.
  - Every other character gets a backslash in front of it.
  - Escaping is proved against an independent reader of POSIX shell quoting (`Shell.Unquote`), following section 2.2.1 (escape character) and section 2.2.2 (single quotes) of the POSIX Shell Command Language. Reading an escaped word gives back the original string.
- **Messages** (`Command::Runner::Message`): the defaults, the status predicates, and `Message.error`.
- **Backends**, modelled as values `Backend(kind, ran)`:
  - `Fake` defines the behaviour every backend inherits: the availability check in `initialize`, call logging in `call`, `ran?`, and `unsafe?`.
  - `UnsafeFake` overrides only `unsafe?`.
  - Backend selection: the `best_backend` preference chain, the lazily cached class default, and the instance override.
- **Runner**: `contents`, `pass!`, which maps `Errno::ENOENT` to `NoCommandError`, and `pass`, which catches `NoCommandError`.
- **`Runner::Messenger`**: the older front end, with its own path preference chain and a `pass` that maps no errors.

Ruby mutates objects in place; the model is functional. A call returns the updated backend together with its outcome. A process run by a real backend is an `external` parameter: the message or error that the real backend produced.

Ruby values are `Values.Value`: strings, symbols, integers, booleans and nil, with `to_s`. Options hashes are `map<Value, OptValue>`.

Where the gem's documentation and its code disagree, the model follows the code:

- Interpolation returns one string. It does not split the result into shell words. The key class has no `.`, so `{env.flags}` is never looked up as a nested key. The expectation at `spec/interpolation_spec.rb:15-18` therefore does not hold for the code.
- `{key}` is always escaped. `interpolate` never consults the backend's `unsafe?`.
- Only `UnsafeFake` answers `unsafe?` with true. `Backticks` inherits false from `Fake`.
- `Backticks.available?` returns true unconditionally, so in the gem `Fake` is never chosen by `best_backend`. The model takes availability as a probe, so that the whole chain can be stated.
- The default `stdout` of a message is `"\n"`.

## Model

| member | source | states |
|---|---|---|
| Shell.EscapeRoundTrip | lib/command/runner.rb:153-155 | reading the escaped word with POSIX quoting rules gives back exactly the original string, for every string including the empty one |
| Shell.Escape | lib/command/runner.rb:153-155 | the escaped word is never empty, so an empty value still yields a shell word |
| Shell.EscapeSafe | lib/command/runner.rb:153-155 | a non-empty string made only of Shellwords-safe characters is returned unchanged |
| Shell.EscapePinned | lib/command/runner.rb:153-155 | backtick, space and braces are backslash-escaped; ASCII letters and digits are not |
| Shell.EscapeBadValue | spec/messenger_spec.rb:19-21 | "`bad value`" escapes to "\\`bad\\ value\\`" |
| Shell.EscapeBraces | spec/messenger_spec.rb:23-25 | "{other}" escapes to "\\{other\\}" |
| Interpolation.KeyRun | lib/command/runner.rb:138 | the key group takes the longest run of `[0-9a-zA-Z_-]` characters at the current position |
| Interpolation.MatchAt | lib/command/runner.rb:138 | a match found at a position is a prefix of the text, with one or two opening braces, a non-empty key and one or two closing braces |
| Interpolation.MatchAtIsPreferredDecomposition | lib/command/runner.rb:138 | a match exists at a position iff the text there starts with a string of the regex's language; when it exists it is the one the backtracking regex prefers (two opening braces before one, the longest key, the longest closing run) |
| Interpolation.SubstitutePlaceholder | lib/command/runner.rb:138-144 | a bound key in `{key}` is replaced by the escaped `to_s` of its value; in `{{key}}` by the raw `to_s`; an unbound key or unequal brace counts keeps the placeholder text; scanning resumes after the match |
| Interpolation.SubstituteLiteral | lib/command/runner.rb:138 | text without `{` is copied unchanged and does not affect how the rest is substituted |
| Interpolation.SubstituteUnbound | lib/command/runner.rb:139-142 | with an empty context every template is returned unchanged |
| Interpolation.Normalize | lib/command/runner.rb:136 | the normalised context's keys are exactly the `to_s` of the given keys |
| Interpolation.NormalizeLaterWins | lib/command/runner.rb:136 | for each key, the value of the last pair with that key wins |
| Interpolation.Interpolate | lib/command/runner.rb:135-145 | a template without `{` comes back unchanged whatever the context; an empty context behaves like `{}` and leaves every template unchanged |
| Interpolation.Substitute | lib/command/runner.rb:138-144 | the `gsub` pass leaves a text without `{` unchanged |
| Interpolation.Replacement | lib/command/runner.rb:139-143 | for a bound key in `{key}` the replacement is a shell word that reads back as the value's `to_s`; in `{{key}}` it is the raw `to_s`; otherwise it is the matched text itself |
| Values.ToS | lib/command/runner.rb:140 | `to_s` keeps strings and symbol names, writes nil as the empty string and booleans as `true`/`false`, and writes an integer in canonical decimal (a leading `-` when negative, no leading zero) whose digits read back as its value |
| TemplateExamples.SingleBrace | lib/command/runner.rb:135-145 | "some {interpolation}" becomes "some " followed by the escaped value, for every string value |
| TemplateExamples.DoubleBrace | lib/command/runner.rb:135-145 | "some {{interpolation}}" becomes "some " followed by the raw value, for every string value |
| TemplateExamples.Mismatch | lib/command/runner.rb:139-142 | "some {{interpolation}" is returned unchanged, for every string value |
| TemplateExamples.NoRescan | spec/messenger_spec.rb:23-25 | the value "{other}" is escaped and not interpolated again, although `other` is bound |
| CommandRunner.SingleBraceExample | spec/messenger_spec.rb:15-17 | contents of echo "some {interpolation}" with "test" is ["echo", "some test"] |
| CommandRunner.EscapedValueExample | spec/messenger_spec.rb:19-21 | with "`bad value`" the contents are ["echo", "some \\`bad\\ value\\`"] |
| CommandRunner.NoRescanExample | spec/messenger_spec.rb:23-25 | with "{other}" and other: "hi" the contents are ["echo", "some \\{other\\}"] |
| CommandRunner.RawValueExample | spec/messenger_spec.rb:36-38 | double braces with "`bad value`" give ["echo", "some `bad value`"] |
| CommandRunner.MismatchExample | spec/messenger_spec.rb:45-47 | "some {{interpolation}" stays unchanged in the contents |
| Values.SplitEnv | lib/command/runner.rb:96 | `options.delete(:env) \|\| {}`: the environment is the `:env` value when it is truthy and `{}` otherwise; the remaining options are all other keys with their values |
| Values.SplitEnvRestores | lib/command/runner.rb:96 | putting a truthy environment back into the remaining options restores the original options |
| Messages.New | lib/command/runner/message.rb:39-53 | each omitted field takes its default: not executed, process id -1, exit code 0, env {}, options {}, stdout "\n", stderr "", line "", status nil; each given field is kept |
| Messages.NonzeroExit | lib/command/runner/message.rb:66-76 | a nonzero exit is exactly the negation of success |
| Messages.NoCommand | lib/command/runner/message.rb:82-84 | a missing command is exactly exit code 127, and implies a nonzero exit and no success |
| Messages.Error | lib/command/runner/message.rb:13-15 | the error message reports a missing command, is not successful, was not executed, keeps the given line, and has every other default: process id -1, stdout "\n", stderr "", env {}, options {}, status nil |
| Backends.Initialize | lib/command/runner/backends/fake.rb:31-35 | construction succeeds iff the backend class is available, with an empty log; otherwise it fails with `NotAvailableBackendError` |
| Backends.Available | lib/command/runner/backends/fake.rb:15-17 | `Fake` and `UnsafeFake` are available on every platform |
| Backends.FakesAlwaysConstruct | lib/command/runner/backends/fake.rb:15-17 | Fake and UnsafeFake can always be constructed |
| Backends.InstanceUnsafe | lib/command/runner/backends/fake.rb:70-72 | the instance answers as its class does, which is true only for UnsafeFake |
| Backends.UnsafeFakeCallsLikeFake | lib/command/runner/backends/unsafe_fake.rb:4-15 | UnsafeFake logs and answers calls exactly as Fake does; only `unsafe?` differs |
| Backends.Call | lib/command/runner/backends/fake.rb:51-56 | the log gains exactly `[command, arguments]` at its end; the message carries the env, the options and the line `[command, *arguments].join(' ')`, and the defaults otherwise |
| Backends.RanCharacterization | lib/command/runner/backends/fake.rb:65-67 | for a string argument `ran?` holds iff a logged call had that command and either that string or a one-element array of it; for an array it holds iff the array has one element and a call with that element as a string was logged |
| Backends.Ran | lib/command/runner/backends/fake.rb:65-67 | `ran?` can only hold when some logged call had the queried command |
| Backends.RanAfterCall | lib/command/runner/backends/fake.rb:51-67 | after a call with a string argument, `ran?` reports it |
| Backends.RanOnFreshBackend | lib/command/runner/backends/fake.rb:31-35 | a freshly constructed backend reports no call as run |
| Backends.RanPersists | lib/command/runner/backends/fake.rb:51-67 | later calls never make `ran?` forget an earlier call |
| Backends.RanMissesSplitArrays | lib/command/runner/backends/fake.rb:65-67 | `ran?` with an array of other than one element is always false |
| Backends.RanMissesArrayCall | lib/command/runner/backends/fake.rb:51-67 | on a fresh backend, a call made with an array of arguments is not reported by `ran?` for those same arguments |
| Backends.CalledAfterCall | lib/command/runner/backends/fake.rb:51-67 | the intended query reports every call, whatever its arguments, and keeps reporting it after later calls |
| Backends.CalledAgreesOnWords | lib/command/runner/backends/fake.rb:65-67 | the intended query and `ran?` agree for string arguments |
| Backends.BestKind | lib/command/runner.rb:26-36 | PosixSpawn when available, else Spawn when available, else Backticks when available, else Fake |
| Backends.BestBackend | lib/command/runner.rb:26-36 | the chosen backend constructs successfully, is available and has an empty log |
| Backends.Dispatch | lib/command/runner/backends/fake.rb:51-56 | every backend logs the call through Fake's `call`; a fake returns its message, and a real backend returns the outcome of its process |
| Selection.FirstAvailable | lib/command/runner.rb:26-36 | the choice is the first available candidate of the chain, or the fallback when none is available |
| Selection.Lazy | lib/command/runner.rb:19-21 | `@x \|\|= compute`: a cached value is returned as it is; otherwise the computed value is returned and cached |
| Selection.Resolve | lib/command/runner.rb:66-68 | an instance value takes precedence; otherwise the class default is used, computed lazily |
| CommandRunner.ClassBackend | lib/command/runner.rb:19-21 | the class backend is the cached one if set, and otherwise the best backend, which is then cached |
| CommandRunner.InstanceBackend | lib/command/runner.rb:66-68 | the instance backend wins over the class default |
| CommandRunner.Contents | lib/command/runner.rb:121-123 | the contents are the command followed by the interpolated arguments |
| CommandRunner.PassRequest | lib/command/runner.rb:96 | the backend receives the command, the interpolated arguments, the truthy `:env` value or {}, and the options without `:env` |
| CommandRunner.PassBang | lib/command/runner.rb:95-100 | the call is logged; `Errno::ENOENT` from a real backend becomes `NoCommandError` with the command; every other outcome passes through; a fake never fails |
| CommandRunner.Pass | lib/command/runner.rb:108-113 | `NoCommandError` never escapes; in its place comes a message whose line is the contents pair and whose exit code is 0; every other outcome equals that of `pass!` |
| CommandRunner.PassBangShared | lib/command/runner.rb:95-100 | `pass!` on a runner resolves its backend as `backend` does (the instance's own, else the cached class default); the backend the runner resolves to afterwards has the call appended to its log, the outcome is that of `pass!` on the resolved backend, command, arguments and options are unchanged, and when the runner has its own backend the class slot keeps its own copy unchanged (a backend held in two places is not shared; see "Left out") |
| CommandRunner.PassBangSharedRecordsCall | lib/command/runner.rb:95-100 | after `pass!`, `ran?` on the backend the runner resolves to reports the command with the interpolated arguments |
| CommandRunner.PassReportsMissingCommandAsSuccess | lib/command/runner.rb:108-113 | when a real backend raises `Errno::ENOENT`, `pass` returns a successful message that does not report a missing command |
| CommandRunner.PassIntended | lib/command/runner/message.rb:8-15 | with `Message.error` on the rescue path, a missing command yields a message that reports it (exit code 127), and every other outcome is as for `pass!` |
| CommandRunner.PassBangOnFake | lib/command/runner.rb:95-100 | with a fake backend, `ran?` reports the call afterwards, the message's line is the command and arguments joined by a space, env and options are forwarded, and `pass` agrees with `pass!` |
| Messenger.BestPath | lib/runner/messenger.rb:20-28 | PosixSpawn when available, else Spawn when available, else Fake |
| Messenger.ClassPath | lib/runner/messenger.rb:13-15 | the class path is the cached one when set; otherwise it is the best path, which is then cached |
| Messenger.InstancePath | lib/runner/messenger.rb:56-58 | the instance path wins over the lazily cached class default |
| Messenger.Contents | lib/runner/messenger.rb:88-90 | the contents are a pair: the command, then the interpolated arguments |
| Messenger.ContentsAgree | lib/runner/messenger.rb:88-111 | the messenger's contents, and so its interpolation, equal those of `Command::Runner` for the same command, arguments and context |
| Messenger.Pass | lib/runner/messenger.rb:78-80 | the path receives the contents, the truthy `:env` value or {}, and the remaining options with their original values; its outcome, errors included, is returned unchanged |
| Messenger.PassLikeRunnerButUnmapped | lib/runner/messenger.rb:78-80 | the messenger hands a real backend the same request as `Command::Runner#pass!` (runner.rb:95-100); on `Errno::ENOENT` the messenger returns that error unchanged, whereas the runner raises `NoCommandError` |

## Left out

- The `time` field of a message is left out: it is a floating-point wall-clock duration.
- Futures, pipes, process spawning and SSH are left out. This covers the real bodies of the `Spawn`, `PosixSpawn`, `Backticks` and `SSH` backends. A real backend's outcome is the `external` parameter.
- `Paths::Fake` and `Paths::Spawn` are not part of this model. The messenger's paths are represented only by their kind and availability.
- The caller's options hash is mutated by `options.delete(:env)`. The model returns the split options instead.
- `dup` and `freeze` of options and of message fields have no counterpart in an immutable model.
- Message data with keys outside the documented ones is left out, and so is a field explicitly given as `nil`.
- Shell.Escape: the set of characters `Shellwords.escape` leaves alone differs between Ruby versions (older versions also escape `+`, for example). The model uses the current set.
- Shell.Escape: multibyte characters are treated as single characters. Ruby's byte-level behaviour on invalid encodings is not modelled.
- Backends.BestKind: `Backticks.available?` is unconditionally true in the gem. The model takes it from the probe, which makes the `Fake` fallback reachable.
- The real backends' own quirks are not modelled. `Spawn#call` calls `spawn(env, line, new_options)` with three arguments, while `PosixSpawn` overrides `spawn` with four parameters `(env, command, arguments, options)`. `PosixSpawn.available?` caches with `@_available ||=`, which stores only a true result, so a false answer is computed again on every call.
- Shell.Escape: recent `shellwords` versions raise `ArgumentError` for a string that contains a NUL character. The model follows the older behaviour, which backslash-escapes NUL like any other unsafe character.
- The `env` field of a message records the `@env` instance variable. The Ruby class defines no public `env` reader for it.
- CommandRunner.PassBangShared: a backend held in more than one place is copied, not shared. In Ruby the class default, a runner's own backend and another runner's backend can be one object, so a call through one holder is seen by `ran?` through every other. In the model the grown backend is stored only where the runner resolved it, and the other holders keep their old log.
- CommandRunner.Pass: it takes its backend as a parameter. `pass` calls `pass!`, so it resolves and stores the backend exactly as CommandRunner.PassBangShared shows for `pass!`.
- Values.ToS: only strings, symbols, integers, booleans and nil are modelled as interpolation values. Other Ruby objects, and their `to_s`, are left out.

## Findings

| source | as written | input that shows it | evidently intended | confidence | as-written member | corrected member |
|---|---|---|---|---|---|---|
| lib/command/runner.rb:108-113 | `pass` rescues `NoCommandError` with `Message.new(:line => ...)`, whose exit code defaults to 0 | a real backend whose `call` raises `Errno::ENOENT` | `Message.error(line)` (message.rb:8-15, documented for exactly this case), so that `no_command?` holds | not executed; high | CommandRunner.PassReportsMissingCommandAsSuccess | CommandRunner.PassIntended |
| lib/command/runner/backends/fake.rb:65-67 | `ran?` looks for `[command, *arguments]`, but `call` logs `[command, arguments]` | `call("echo", ["hello"])` on a fresh Fake, then `ran?("echo", ["hello"])` is false | `ran?` reports every call made with the same arguments | not executed; medium | Backends.RanMissesArrayCall | Backends.CalledAfterCall |

=== FILE: backends.dfy ===
/**
 `Command::Runner::Backends`. Every backend class derives from `Fake`:
 it inherits the availability check in `initialize`, the call log that
 `call` appends to through `super`, `ran?` and the instance `unsafe?`.
 Only `Fake` and `UnsafeFake` are modelled in full; the real backends
 appear through their availability and through the outcome of their
 execution, which is a parameter.
 */
module Backends {
  import opened Wrappers
  import opened Values
  import opened Messages
  import Selection

  datatype Kind = PosixSpawn | Spawn | Backticks | Fake | UnsafeFake

  /** What the platform-dependent classes' `available?` report. */
  datatype Probe = Probe(posixSpawn: bool, spawn: bool, backticks: bool)

  /** The errors raised at the backend boundary. */
  datatype Error =
    | NotAvailableBackendError
    | NoCommandError(command: string)
    | Enoent(reason: string)
    | OtherError(name: string)

  /** Class-level `available?`: `Fake` answers true, and `UnsafeFake` inherits that. */
  function Available(k: Kind, p: Probe): (r: bool)
    ensures k == Fake || k == UnsafeFake ==> r
  {
    match k
    case PosixSpawn => p.posixSpawn
    case Spawn => p.spawn
    case Backticks => p.backticks
    case Fake => true
    case UnsafeFake => true
  }

  /** Class-level `unsafe?`: `Fake` answers false, only `UnsafeFake` overrides it. */
  predicate ClassUnsafe(k: Kind)
  {
    k == UnsafeFake
  }

  /** The arguments given to `call`: one string, or an array of strings. */
  datatype Args = Word(s: string) | Words(ws: seq<string>)

  /** A backend object: its class and its append-only log of `[command, arguments]` entries. */
  datatype Backend = Backend(kind: Kind, ran: seq<(string, Args)>)

  /** `initialize`: an empty log, and `NotAvailableBackendError` when the class is unavailable. */
  function Initialize(k: Kind, p: Probe): (r: Result<Backend, Error>)
    ensures r.Success? <==> Available(k, p)
    ensures r.Success? ==> r.value.kind == k && forall c, a :: !Ran(r.value, c, a)
    ensures r.Failure? ==> r.error == NotAvailableBackendError
  {
    if Available(k, p) then Success(Backend(k, [])) else Failure(NotAvailableBackendError)
  }

  /** Instance `unsafe?`, delegated to the class: true exactly for `UnsafeFake`. */
  function InstanceUnsafe(b: Backend): (r: bool)
    ensures r == ClassUnsafe(b.kind)
    ensures r <==> b.kind == UnsafeFake
  {
    ClassUnsafe(b.kind)
  }

  /** `*arguments`: a string splats to itself, an array to its elements. */
  function Splat(a: Args): seq<string>
  {
    match a
    case Word(s) => [s]
    case Words(ws) => ws
  }

  /** `Array#join(' ')`. */
  function Join(parts: seq<string>): string
    decreases |parts|
  {
    if |parts| == 0 then ""
    else if |parts| == 1 then parts[0]
    else parts[0] + " " + Join(parts[1..])
  }

  /** `[command, *arguments].join(' ')`. */
  function CommandLine(c: string, a: Args): string
  {
    Join([c] + Splat(a))
  }

  /** `Fake#call`: append `[command, arguments]` to the log and describe the call in a message. */
  function Call(b: Backend, c: string, a: Args, env: OptValue, opts: Options): (r: (Backend, Message))
    ensures r.0.kind == b.kind
    ensures r.0.ran == b.ran + [(c, a)]
    ensures r.1.env == env && r.1.options == opts && r.1.line == Joined(CommandLine(c, a))
    ensures !Executed(r.1) && Successful(r.1) && r.1.processId == -1
    ensures r.1.stdout == "\n" && r.1.stderr == "" && r.1.status == None
  {
    var m := New(NoData.(env := Some(env), options := Some(opts), line := Some(Joined(CommandLine(c, a)))));
    (Backend(b.kind, b.ran + [(c, a)]), m)
  }

  /** An element of a Ruby array as `ran?` compares it: a string, or a nested array of strings. */
  datatype Elem = Item(s: string) | Items(ss: seq<string>)

  /** A logged entry as the array `[command, arguments]`. */
  function EntryArray(e: (string, Args)): seq<Elem>
  {
    match e.1
    case Word(s) => [Item(e.0), Item(s)]
    case Words(ws) => [Item(e.0), Items(ws)]
  }

  function ItemsOf(ss: seq<string>): (r: seq<Elem>)
    ensures |r| == |ss| && forall i | 0 <= i < |ss| :: r[i] == Item(ss[i])
  {
    seq(|ss|, i requires 0 <= i < |ss| => Item(ss[i]))
  }

  /** The array `[command, *arguments]` that `ran?` looks for. */
  function QueryArray(c: string, a: Args): seq<Elem>
  {
    [Item(c)] + ItemsOf(Splat(a))
  }

  /** `ran?(command, arguments)`: `@ran.include?([command, *arguments])`. */
  predicate Ran(b: Backend, c: string, a: Args)
    ensures Ran(b, c, a) ==> exists i | 0 <= i < |b.ran| :: b.ran[i].0 == c
  {
    assert forall i | 0 <= i < |b.ran| && EntryArray(b.ran[i]) == QueryArray(c, a) :: b.ran[i].0 == c by {
      forall i | 0 <= i < |b.ran| && EntryArray(b.ran[i]) == QueryArray(c, a) ensures b.ran[i].0 == c {
        assert EntryArray(b.ran[i])[0] == QueryArray(c, a)[0];
      }
    }
    exists i | 0 <= i < |b.ran| :: EntryArray(b.ran[i]) == QueryArray(c, a)
  }

  /**
   What `ran?` answers, in terms of the log: for a string argument,
   whether that exact call was logged; for an array argument, only a
   one-element array can match, and it matches a logged call whose
   argument was that element as a string, because the log keeps the
   arguments unsplatted while the query splats them.
   */
  lemma RanCharacterization(b: Backend, c: string, a: Args)
    ensures a.Word? ==> (Ran(b, c, a) <==> (c, a) in b.ran)
    ensures a.Words? ==> (Ran(b, c, a) <==> |a.ws| == 1 && (c, Word(a.ws[0])) in b.ran)
  {
    var q := QueryArray(c, a);
    if Ran(b, c, a) {
      var i :| 0 <= i < |b.ran| && EntryArray(b.ran[i]) == q;
      var e := b.ran[i];
      assert q[0] == Item(c);
      match a
      case Word(s) =>
        assert q[1] == Item(s);
        assert e.1.Word?;
        assert e == (c, a);
      case Words(ws) =>
        assert |q| == 1 + |ws|;
        assert |ws| == 1;
        assert q[1] == Item(ws[0]);
        assert e == (c, Word(ws[0]));
    }
  }

  /** After `call(c, s)` with a string argument, `ran?(c, s)` holds. */
  lemma RanAfterCall(b: Backend, c: string, s: string, env: OptValue, opts: Options)
    ensures Ran(Call(b, c, Word(s), env, opts).0, c, Word(s))
  {
    RanCharacterization(Call(b, c, Word(s), env, opts).0, c, Word(s));
  }

  /** The log only grows: whatever `ran?` answered true before a call it still answers true. */
  lemma RanPersists(b: Backend, c: string, a: Args, c': string, a': Args, env: OptValue, opts: Options)
    requires Ran(b, c, a)
    ensures Ran(Call(b, c', a', env, opts).0, c, a)
  {
    var i :| 0 <= i < |b.ran| && EntryArray(b.ran[i]) == QueryArray(c, a);
    assert Call(b, c', a', env, opts).0.ran[i] == b.ran[i];
  }

  /** An array argument with other than one element is never reported as run, even right after that call. */
  lemma RanMissesSplitArrays(b: Backend, c: string, ws: seq<string>)
    requires |ws| != 1
    ensures !Ran(b, c, Words(ws))
  {
    RanCharacterization(b, c, Words(ws));
  }

  /** A fresh backend has run nothing. */
  lemma RanOnFreshBackend(b: Backend, c: string, a: Args)
    requires b.ran == []
    ensures !Ran(b, c, a)
  {
  }

  /**
   `ran?` does not report a call made with an array of arguments, not
   even the one just made: the log keeps `[command, arguments]` while the
   query builds `[command, *arguments]`.
   */
  lemma RanMissesArrayCall(b: Backend, c: string, ws: seq<string>, env: OptValue, opts: Options)
    requires b.ran == []
    ensures !Ran(Call(b, c, Words(ws), env, opts).0, c, Words(ws))
  {
    var b' := Call(b, c, Words(ws), env, opts).0;
    assert b'.ran == [(c, Words(ws))];
    RanCharacterization(b', c, Words(ws));
  }

  /** The query `ran?` evidently means: was `call(command, arguments)` made on this backend. */
  predicate Called(b: Backend, c: string, a: Args)
  {
    (c, a) in b.ran
  }

  /** Every call is reported by `Called`, whatever the shape of its arguments, and later calls do not hide it. */
  lemma CalledAfterCall(b: Backend, c: string, a: Args, c': string, a': Args, env: OptValue, opts: Options)
    ensures Called(Call(b, c, a, env, opts).0, c, a)
    ensures Called(b, c', a') ==> Called(Call(b, c, a, env, opts).0, c', a')
  {
    var b' := Call(b, c, a, env, opts).0;
    assert b'.ran[|b.ran|] == (c, a);
    if Called(b, c', a') {
      var i :| 0 <= i < |b.ran| && b.ran[i] == (c', a');
      assert b'.ran[i] == (c', a');
    }
  }

  /** For a string argument, `ran?` and `Called` agree. */
  lemma CalledAgreesOnWords(b: Backend, c: string, s: string)
    ensures Called(b, c, Word(s)) <==> Ran(b, c, Word(s))
  {
    RanCharacterization(b, c, Word(s));
  }

  /** `UnsafeFake` logs and answers exactly as `Fake` does; only its `unsafe?` differs. */
  lemma UnsafeFakeCallsLikeFake(log: seq<(string, Args)>, c: string, a: Args, env: OptValue, opts: Options)
    ensures Call(Backend(UnsafeFake, log), c, a, env, opts).1 == Call(Backend(Fake, log), c, a, env, opts).1
    ensures Call(Backend(UnsafeFake, log), c, a, env, opts).0.ran == Call(Backend(Fake, log), c, a, env, opts).0.ran
    ensures InstanceUnsafe(Backend(UnsafeFake, log)) && !InstanceUnsafe(Backend(Fake, log))
  {
  }

  /** Both fakes are available on every platform, so constructing one never raises. */
  lemma FakesAlwaysConstruct(k: Kind, p: Probe)
    requires IsFake(k)
    ensures Initialize(k, p).Success?
  {
  }

  /** The preference order of `best_backend`: PosixSpawn, Spawn, Backticks, then Fake. */
  function BestKind(p: Probe): (k: Kind)
    ensures p.posixSpawn ==> k == PosixSpawn
    ensures !p.posixSpawn && p.spawn ==> k == Spawn
    ensures !p.posixSpawn && !p.spawn && p.backticks ==> k == Backticks
    ensures !p.posixSpawn && !p.spawn && !p.backticks ==> k == Fake
  {
    var chain := [(PosixSpawn, p.posixSpawn), (Spawn, p.spawn), (Backticks, p.backticks)];
    var k := Selection.FirstAvailable(chain, Fake);
    if p.posixSpawn then
      assert chain[0].1;
      k
    else if p.spawn then
      assert chain[1].1;
      k
    else if p.backticks then
      assert chain[2].1;
      k
    else k
  }

  /** `best_backend`: a new instance of the preferred class; its construction never raises. */
  function BestBackend(p: Probe): (b: Backend)
    ensures Initialize(BestKind(p), p) == Success(b)
    ensures b.kind == BestKind(p) && Available(b.kind, p) && b.ran == []
  {
    Initialize(BestKind(p), p).value
  }

  /** The arguments a runner passes to `call`: command, arguments, environment, options. */
  datatype Request = Request(command: string, arguments: Args, env: OptValue, options: Options)

  predicate IsFake(k: Kind)
  {
    k == Fake || k == UnsafeFake
  }

  /**
   `call` on any backend: every class logs the call through `Fake#call`;
   the fakes then return their message, while a real backend's result
   (its message, or an error such as `Errno::ENOENT`) comes from executing
   the command, given here as `external`.
   */
  function Dispatch(b: Backend, q: Request, external: Result<Message, Error>): (r: (Backend, Result<Message, Error>))
    ensures r.0 == Call(b, q.command, q.arguments, q.env, q.options).0
    ensures IsFake(b.kind) ==> r.1 == Success(Call(b, q.command, q.arguments, q.env, q.options).1)
    ensures !IsFake(b.kind) ==> r.1 == external
  {
    var (b', m) := Call(b, q.command, q.arguments, q.env, q.options);
    if IsFake(b.kind) then (b', Success(m)) else (b', external)
  }
}

=== FILE: command_runner.dfy ===
/**
 `Command::Runner`: a command, an argument template and options, with
 backend resolution, `contents`, `pass!` (which turns `Errno::ENOENT`
 into `NoCommandError`) and `pass` (which turns `NoCommandError` into a
 message).
 */
module CommandRunner {
  import opened Wrappers
  import opened Values
  import opened Messages
  import opened Backends
  import opened Interpolation
  import Selection
  import TemplateExamples

  /**
   A runner: `Runner.new(command, arguments, options)` plus the instance
   backend set through `backend=` (None until set). The `options` reader
   returns a frozen copy, which is the same value here.
   */
  datatype Runner = Runner(command: string, arguments: string, options: Options, backend: Option<Backend>)

  /** The class-level `backend`: the cached default, computed by `best_backend` on first use. */
  function ClassBackend(slot: Option<Backend>, p: Probe): (r: (Backend, Option<Backend>))
    ensures slot.Some? ==> r == (slot.value, slot)
    ensures slot.None? ==> r.0.kind == BestKind(p) && r.0.ran == [] && r.1 == Some(r.0)
  {
    Selection.Lazy(slot, BestBackend(p))
  }

  /** The instance `backend`: the instance's own backend when set, else the class default. */
  function InstanceBackend(r: Runner, slot: Option<Backend>, p: Probe): (res: (Backend, Option<Backend>))
    ensures r.backend.Some? ==> res == (r.backend.value, slot)
    ensures r.backend.None? ==> res == ClassBackend(slot, p)
  {
    Selection.Resolve(r.backend, slot, BestBackend(p))
  }

  /** `contents(interops)`: the command, untouched, and the interpolated arguments. */
  function Contents(r: Runner, interops: seq<(Value, Value)>): (c: seq<string>)
    ensures |c| == 2 && c[0] == r.command && c[1] == Interpolate(r.arguments, interops)
  {
    [r.command, Interpolate(r.arguments, interops)]
  }

  /** What `pass!` hands to `backend.call`: `(command, interpolated arguments, options[:env] || {}, options without :env)`. */
  function PassRequest(r: Runner, interops: seq<(Value, Value)>, options: Options): (q: Request)
    ensures q.command == r.command && q.arguments == Word(Interpolate(r.arguments, interops))
    ensures q.env == SplitEnv(options).0
    ensures EnvKey !in q.options && q.options.Keys == options.Keys - {EnvKey}
    ensures forall k | k in q.options :: q.options[k] == options[k]
  {
    var c := Contents(r, interops);
    var (env, rest) := SplitEnv(options);
    Request(c[0], Word(c[1]), env, rest)
  }

  /** The `rescue Errno::ENOENT` of `pass!`. */
  function RaiseNoCommand(command: string, out: Result<Message, Error>): Result<Message, Error>
  {
    if out.Failure? && out.error.Enoent? then Failure(NoCommandError(command)) else out
  }

  /**
   `pass!(interops, options)` on backend `b`; `external` is what a real
   backend's execution yields. Returns the backend after the call and
   the message or raised error.
   */
  function PassBang(r: Runner, b: Backend, interops: seq<(Value, Value)>, options: Options,
                    external: Result<Message, Error>): (res: (Backend, Result<Message, Error>))
    ensures res.0.kind == b.kind
    ensures res.0.ran == b.ran + [(r.command, Word(Interpolate(r.arguments, interops)))]
    ensures !(res.1.Failure? && res.1.error.Enoent?)
    ensures !IsFake(b.kind) && external.Failure? && external.error.Enoent? ==>
      res.1 == Failure(NoCommandError(r.command))
    ensures !IsFake(b.kind) && !(external.Failure? && external.error.Enoent?) ==> res.1 == external
    ensures IsFake(b.kind) ==> res.1.Success?
  {
    var (b', out) := Dispatch(b, PassRequest(r, interops, options), external);
    (b', RaiseNoCommand(r.command, out))
  }

  /**
   `pass(interops, options)`: `pass!`, except that `NoCommandError`
   becomes `Message.new(:line => contents(interops))`. That message
   keeps the default exit code 0; other errors still propagate.
   */
  function Pass(r: Runner, b: Backend, interops: seq<(Value, Value)>, options: Options,
                external: Result<Message, Error>): (res: (Backend, Result<Message, Error>))
    ensures res.0 == PassBang(r, b, interops, options, external).0
    ensures !(res.1.Failure? && res.1.error.NoCommandError?)
    ensures var bang := PassBang(r, b, interops, options, external).1;
      bang.Failure? && bang.error.NoCommandError? ==>
        && res.1.Success?
        && res.1.value.line == Pair(Contents(r, interops))
        && res.1.value.exitCode == 0 && !NoCommand(res.1.value) && !Executed(res.1.value)
    ensures var bang := PassBang(r, b, interops, options, external).1;
      !(bang.Failure? && bang.error.NoCommandError?) ==> res.1 == bang
  {
    var (b', out) := PassBang(r, b, interops, options, external);
    if out.Failure? && out.error.NoCommandError? then
      (b', Success(New(NoData.(line := Some(Pair(Contents(r, interops)))))))
    else (b', out)
  }

  /**
   `pass` reports a missing command as a success: when a real backend
   raises `Errno::ENOENT`, the message `pass` returns has exit code 0, so
   `successful?` holds and `no_command?` does not.
   */
  lemma PassReportsMissingCommandAsSuccess(r: Runner, b: Backend, interops: seq<(Value, Value)>, options: Options, reason: string)
    requires !IsFake(b.kind)
    ensures var out := Pass(r, b, interops, options, Failure(Enoent(reason))).1;
      out.Success? && Successful(out.value) && !NoCommand(out.value)
  {
  }

  /**
   `pass` as `Message.error` (documented as the message for a
   `NoCommandError`) indicates it was meant: the rescue path yields the
   not-found message for the command line.
   */
  function PassIntended(r: Runner, b: Backend, interops: seq<(Value, Value)>, options: Options,
                        external: Result<Message, Error>): (res: (Backend, Result<Message, Error>))
    ensures res.0 == PassBang(r, b, interops, options, external).0
    ensures !(res.1.Failure? && res.1.error.NoCommandError?)
    ensures var bang := PassBang(r, b, interops, options, external).1;
      bang.Failure? && bang.error.NoCommandError? ==>
        && res.1.Success?
        && NoCommand(res.1.value) && !Successful(res.1.value) && !Executed(res.1.value)
        && res.1.value.line == Pair(Contents(r, interops))
    ensures !IsFake(b.kind) && external.Failure? && external.error.Enoent? ==>
      res.1.Success? && NoCommand(res.1.value)
    ensures var bang := PassBang(r, b, interops, options, external).1;
      !(bang.Failure? && bang.error.NoCommandError?) ==> res.1 == bang
  {
    var (b', out) := PassBang(r, b, interops, options, external);
    if out.Failure? && out.error.NoCommandError? then
      (b', Success(Messages.Error(Pair(Contents(r, interops)))))
    else (b', out)
  }

  /**
   With a fake backend, `pass!` never raises: it records the call, so
   `ran?` then reports it, and returns the fake's message for the line
   `command arguments`, carrying the forwarded environment and options.
   */
  lemma PassBangOnFake(r: Runner, b: Backend, interops: seq<(Value, Value)>, options: Options,
                       external: Result<Message, Error>)
    requires IsFake(b.kind)
    ensures var (b', out) := PassBang(r, b, interops, options, external);
      var args := Interpolate(r.arguments, interops);
      && Ran(b', r.command, Word(args))
      && out.Success?
      && out.value.line == Joined(r.command + " " + args)
      && out.value.env == SplitEnv(options).0
      && out.value.options == SplitEnv(options).1
      && Successful(out.value) && !Executed(out.value)
      && Pass(r, b, interops, options, external) == (b', out)
  {
    var q := PassRequest(r, interops, options);
    var args := Interpolate(r.arguments, interops);
    RanAfterCall(b, q.command, args, q.env, q.options);
    var (b', m) := Call(b, q.command, q.arguments, q.env, q.options);
    assert PassBang(r, b, interops, options, external) == (b', Success(m));
    assert [r.command] + Splat(q.arguments) == [r.command, args];
    assert Join([r.command, args]) == r.command + " " + args by {
      assert [r.command, args][1..] == [args];
    }
  }

  /** Where the grown backend goes: back to the runner when it came from there, else into the class slot. */
  function StoreBackend(r: Runner, slot: Option<Backend>, b: Backend): (Runner, Option<Backend>)
  {
    if r.backend.Some? then (r.(backend := Some(b)), slot) else (r, Some(b))
  }

  /**
   `pass!` as a runner runs it: the backend is resolved as `backend`
   does (`@backend || self.class.backend`, which fills the class cache
   on first use), and since that backend is a shared object whose log
   grows in place, the grown backend is stored back where it came from.
   Only that one holder is updated: when the same backend object is also
   the class default or another runner's backend, those copies keep their
   old log here, whereas in Ruby they would see the call too.
   */
  function PassBangShared(r: Runner, slot: Option<Backend>, p: Probe, interops: seq<(Value, Value)>,
                          options: Options, external: Result<Message, Error>)
    : (res: (Runner, Option<Backend>, Result<Message, Error>))
    ensures var used := InstanceBackend(r, slot, p).0;
      && InstanceBackend(res.0, res.1, p).0 == PassBang(r, used, interops, options, external).0
      && res.2 == PassBang(r, used, interops, options, external).1
    ensures InstanceBackend(res.0, res.1, p).0.ran
      == InstanceBackend(r, slot, p).0.ran + [(r.command, Word(Interpolate(r.arguments, interops)))]
    ensures res.0.command == r.command && res.0.arguments == r.arguments && res.0.options == r.options
    ensures r.backend.Some? ==> res.1 == slot
    ensures r.backend.None? ==> res.0 == r && res.1.Some?
  {
    var (b, _) := InstanceBackend(r, slot, p);
    var (b', out) := PassBang(r, b, interops, options, external);
    var (r', slot') := StoreBackend(r, InstanceBackend(r, slot, p).1, b');
    (r', slot', out)
  }

  /** After `pass!`, the backend the runner resolves to reports the call through `ran?`. */
  lemma PassBangSharedRecordsCall(r: Runner, slot: Option<Backend>, p: Probe, interops: seq<(Value, Value)>,
                                  options: Options, external: Result<Message, Error>)
    ensures var res := PassBangShared(r, slot, p, interops, options, external);
      Ran(InstanceBackend(res.0, res.1, p).0, r.command, Word(Interpolate(r.arguments, interops)))
  {
    var res := PassBangShared(r, slot, p, interops, options, external);
    var now := InstanceBackend(res.0, res.1, p).0;
    var entry := (r.command, Word(Interpolate(r.arguments, interops)));
    assert now.ran[|now.ran| - 1] == entry;
    RanCharacterization(now, entry.0, entry.1);
  }

  /** `"some {interpolation}"` with `"test"`: the value replaces the placeholder, the rest is untouched. */
  lemma SingleBraceExample(r: Runner)
    requires r.command == "echo" && r.arguments == "some {interpolation}"
    ensures Contents(r, TemplateExamples.Bind("test")) == ["echo", "some test"]
  {
    TemplateExamples.SingleBraceTest(r.arguments, "test");
  }

  /** `"some {interpolation}"` with a backticked value: backticks and the space come out backslash-quoted. */
  lemma EscapedValueExample(r: Runner)
    requires r.command == "echo" && r.arguments == "some {interpolation}"
    ensures Contents(r, TemplateExamples.Bind("`bad value`")) == ["echo", "some \\`bad\\ value\\`"]
  {
    TemplateExamples.SingleBraceBadValue(r.arguments, "`bad value`");
  }

  /** A substituted value is not scanned again: `{other}` comes out escaped, not expanded. */
  lemma NoRescanExample(r: Runner)
    requires r.command == "echo" && r.arguments == "some {interpolation}"
    ensures Contents(r, TemplateExamples.BindTwo()) == ["echo", "some \\{other\\}"]
  {
    TemplateExamples.NoRescan(r.arguments, TemplateExamples.BindTwo());
  }

  /** `"some {{interpolation}}"`: the raw value is inserted, backticks and all. */
  lemma RawValueExample(r: Runner)
    requires r.command == "echo" && r.arguments == "some {{interpolation}}"
    ensures Contents(r, TemplateExamples.Bind("`bad value`")) == ["echo", "some `bad value`"]
  {
    TemplateExamples.DoubleBraceBadValue(r.arguments, "`bad value`");
  }

  /** `"some {{interpolation}"`: brace counts differ, so nothing is substituted though the key is bound. */
  lemma MismatchExample(r: Runner)
    requires r.command == "echo" && r.arguments == "some {{interpolation}"
    ensures Contents(r, TemplateExamples.Bind("test")) == ["echo", "some {{interpolation}"]
  {
    TemplateExamples.Mismatch(r.arguments, "test");
  }
}

=== FILE: interpolation.dfy ===
/**
 The argument-template interpolator: one left-to-right `gsub` pass with
 the pattern `(\{{1,2})([0-9a-zA-Z_\-]+)(\}{1,2})`. A bound key in a
 `{key}` match becomes the shell-escaped `to_s` of its value, a bound key
 in a `{{key}}` match becomes the raw value, and any other match (brace
 counts that differ, or an unbound key) is kept verbatim.
 */
module Interpolation {
  import opened Wrappers
  import opened Values
  import Shell

  /** The key character class `[0-9a-zA-Z_\-]`. */
  predicate KeyChar(c: char)
  {
    Shell.AsciiAlnum(c) || c == '_' || c == '-'
  }

  /** A non-empty run of key characters. */
  predicate IsKey(k: string)
  {
    |k| > 0 && forall i | 0 <= i < |k| :: KeyChar(k[i])
  }

  function Repeat(c: char, n: nat): (r: string)
    ensures |r| == n
    ensures forall i | 0 <= i < n :: r[i] == c
    decreases n
  {
    if n == 0 then "" else [c] + Repeat(c, n - 1)
  }

  /** One match of the pattern: the opening brace run, the key, the closing brace run. */
  datatype Match = Match(open: nat, key: string, close: nat)
  {
    function Len(): nat
    {
      open + |key| + close
    }

    /** The matched text, `$&`. */
    function Text(): string
    {
      Repeat('{', open) + key + Repeat('}', close)
    }
  }

  /** Length of the longest prefix of key characters (the greedy `+`). */
  function KeyRun(s: string): (n: nat)
    ensures n <= |s|
    ensures forall i | 0 <= i < n :: KeyChar(s[i])
    ensures n < |s| ==> !KeyChar(s[n])
    decreases |s|
  {
    if |s| == 0 || !KeyChar(s[0]) then 0 else 1 + KeyRun(s[1..])
  }

  /** Length of the greedy `\}{1,2}` at the start of `s`, 0 when there is none. */
  function CloseRun(s: string): nat
  {
    if |s| >= 2 && s[0] == '}' && s[1] == '}' then 2
    else if |s| >= 1 && s[0] == '}' then 1
    else 0
  }

  /** The rest of the pattern once `open` opening braces are taken. */
  function TryOpen(s: string, open: nat): (r: Option<Match>)
    requires 1 <= open <= |s|
    ensures r.Some? ==> r.value.open == open && 1 <= r.value.close <= 2 && r.value.Len() <= |s|
    ensures r.Some? ==> IsKey(r.value.key) && r.value.key == s[open..open + |r.value.key|]
    ensures r.Some? ==> forall i | open + |r.value.key| <= i < r.value.Len() :: s[i] == '}'
  {
    var k := KeyRun(s[open..]);
    if k == 0 then None
    else
      var c := CloseRun(s[open + k..]);
      if c == 0 then None
      else
        var key := s[open..open + k];
        assert forall i | 0 <= i < k :: KeyChar(key[i]) by {
          forall i | 0 <= i < k ensures KeyChar(key[i]) {
            assert key[i] == s[open..][i];
          }
        }
        Some(Match(open, key, c))
  }

  /**
   The match of the pattern at the start of `s`, as a backtracking matcher
   finds it: two opening braces are tried first and, when the rest fails,
   one; the key run and the closing run are greedy.
   */
  function MatchAt(s: string): (r: Option<Match>)
    ensures r.Some? ==> r.value.Len() <= |s| && s[..r.value.Len()] == r.value.Text()
    ensures r.Some? ==> 1 <= r.value.open <= 2 && 1 <= r.value.close <= 2 && IsKey(r.value.key)
  {
    var r :=
      if |s| >= 2 && s[0] == '{' && s[1] == '{' && TryOpen(s, 2).Some? then TryOpen(s, 2)
      else if |s| >= 1 && s[0] == '{' then TryOpen(s, 1)
      else None;
    if r.Some? then
      MatchedText(s, r.value);
      r
    else r
  }

  /** Text that has the brace runs and the key of `m` in place is the text of `m`. */
  lemma MatchedText(s: string, m: Match)
    requires m.Len() <= |s| && m.open <= 2
    requires forall i | 0 <= i < m.open :: s[i] == '{'
    requires m.key == s[m.open..m.open + |m.key|]
    requires forall i | m.open + |m.key| <= i < m.Len() :: s[i] == '}'
    ensures s[..m.Len()] == m.Text()
  {
    var j := m.open + |m.key|;
    var a, c := s[..m.open], s[j..m.Len()];
    assert a == Repeat('{', m.open) by {
      forall i | 0 <= i < m.open ensures a[i] == Repeat('{', m.open)[i] {
      }
    }
    assert c == Repeat('}', m.close) by {
      forall i | 0 <= i < m.close ensures c[i] == Repeat('}', m.close)[i] {
        assert c[i] == s[j + i];
      }
    }
    forall i | 0 <= i < m.Len() ensures s[..m.Len()][i] == (a + m.key + c)[i] {
      if i < m.open {
      } else if i < j {
        assert m.key[i - m.open] == s[i];
      } else {
        assert c[i - j] == s[i];
      }
    }
    assert s[..m.Len()] == a + m.key + c;
  }

  /**
   The language of the pattern, independently of any matching strategy:
   `s` starts with `open` opening braces, `keyLen` key characters and
   `close` closing braces.
   */
  ghost predicate Decomposes(s: string, open: nat, keyLen: nat, close: nat)
  {
    && 1 <= open <= 2 && keyLen >= 1 && 1 <= close <= 2
    && open + keyLen + close <= |s|
    && (forall i | 0 <= i < open :: s[i] == '{')
    && (forall i | open <= i < open + keyLen :: KeyChar(s[i]))
    && (forall i | open + keyLen <= i < open + keyLen + close :: s[i] == '}')
  }

  /** The backtracking order: more opening braces first, then longer keys, then more closing braces. */
  predicate PreferredOver(a: (nat, nat, nat), b: (nat, nat, nat))
  {
    a.0 > b.0 || (a.0 == b.0 && (a.1 > b.1 || (a.1 == b.1 && a.2 >= b.2)))
  }

  lemma KeyRunOfDecomposition(s: string, open: nat, keyLen: nat, close: nat)
    requires Decomposes(s, open, keyLen, close)
    ensures KeyRun(s[open..]) == keyLen
  {
    var t := s[open..];
    var n := KeyRun(t);
    assert forall i | 0 <= i < keyLen :: KeyChar(t[i]) by {
      forall i | 0 <= i < keyLen ensures KeyChar(t[i]) {
        assert t[i] == s[open + i];
      }
    }
    assert !KeyChar(t[keyLen]) by {
      assert t[keyLen] == s[open + keyLen] == '}';
    }
  }

  /**
   `MatchAt` is the regular expression's match: it returns a decomposition
   exactly when one exists, and the one the backtracking order prefers.
   */
  lemma MatchAtIsPreferredDecomposition(s: string)
    ensures MatchAt(s).None? <==> forall o, k, c :: !Decomposes(s, o, k, c)
    ensures MatchAt(s).Some? ==>
      var m := MatchAt(s);
      && Decomposes(s, m.value.open, |m.value.key|, m.value.close)
      && forall o, k, c :: Decomposes(s, o, k, c) ==>
           PreferredOver((m.value.open, |m.value.key|, m.value.close), (o, k, c))
  {
    var r := MatchAt(s);
    if r.Some? {
      var m := r.value;
      MatchDecomposes(s, m);
      forall o, k, c | Decomposes(s, o, k, c)
        ensures PreferredOver((m.open, |m.key|, m.close), (o, k, c))
      {
        PreferredDecomposition(s, m, o, k, c);
      }
    } else {
      forall o, k, c ensures !Decomposes(s, o, k, c) {
        if Decomposes(s, o, k, c) {
          DecompositionIsFound(s, o, k, c);
        }
      }
    }
  }

  /** The text `MatchAt` finds has the shape the pattern describes. */
  lemma MatchDecomposes(s: string, m: Match)
    requires MatchAt(s) == Some(m)
    ensures Decomposes(s, m.open, |m.key|, m.close)
  {
    var p := s[..m.Len()];
    assert p == m.Text();
    forall i | 0 <= i < m.open ensures s[i] == '{' {
      assert s[i] == p[i];
    }
    forall i | m.open <= i < m.open + |m.key| ensures KeyChar(s[i]) {
      assert s[i] == p[i] == m.key[i - m.open];
    }
    forall i | m.open + |m.key| <= i < m.Len() ensures s[i] == '}' {
      assert s[i] == p[i];
    }
  }

  lemma DecompositionIsFound(s: string, o: nat, k: nat, c: nat)
    requires Decomposes(s, o, k, c)
    ensures MatchAt(s).Some?
  {
    KeyRunOfDecomposition(s, o, k, c);
    if o == 2 {
      assert s[o + k..][0] == '}';
      assert TryOpen(s, 2).Some?;
    } else {
      assert s[1] != '{' by {
        assert KeyChar(s[1]);
      }
      assert s[o + k..][0] == '}';
      assert TryOpen(s, 1).Some?;
    }
  }

  lemma PreferredDecomposition(s: string, m: Match, o: nat, k: nat, c: nat)
    requires MatchAt(s) == Some(m)
    requires Decomposes(s, o, k, c)
    requires Decomposes(s, m.open, |m.key|, m.close)
    ensures PreferredOver((m.open, |m.key|, m.close), (o, k, c))
  {
    if o == 2 {
      PreferredOpen(s, m, k, c);
    } else if m.open == 1 {
      PreferredClose(s, m, k, c);
    }
  }

  /** Two opening braces, when they lead to a match, are preferred over one. */
  lemma PreferredOpen(s: string, m: Match, k: nat, c: nat)
    requires MatchAt(s) == Some(m)
    requires Decomposes(s, 2, k, c)
    ensures m.open == 2 && |m.key| == k && m.close >= c
  {
    KeyRunOfDecomposition(s, 2, k, c);
    var t := s[2 + k..];
    assert t[0] == '}';
    assert TryOpen(s, 2).Some?;
    assert m == TryOpen(s, 2).value;
    if c == 2 {
      assert t[1] == '}';
    }
  }

  /** With the same opening run, the key is the whole key run and the closing run is greedy. */
  lemma PreferredClose(s: string, m: Match, k: nat, c: nat)
    requires MatchAt(s) == Some(m) && m.open == 1
    requires Decomposes(s, 1, k, c)
    ensures |m.key| == k && m.close >= c
  {
    KeyRunOfDecomposition(s, 1, k, c);
    assert s[1] != '{' by {
      assert KeyChar(s[1]);
    }
    assert m == TryOpen(s, 1).value;
    var t := s[1 + k..];
    assert t[0] == '}';
    if c == 2 {
      assert t[1] == '}';
    }
  }

  /** The `gsub` pass: scan left to right, replace each match, never rescan replaced text. */
  function Substitute(s: string, b: map<string, Value>): (r: string)
    ensures (forall i | 0 <= i < |s| :: s[i] != '{') ==> r == s
    decreases |s|
  {
    if |s| == 0 then ""
    else match MatchAt(s)
      case Some(m) => Replacement(m, b) + Substitute(s[m.Len()..], b)
      case None =>
        var rest := Substitute(s[1..], b);
        assert (forall i | 0 <= i < |s| :: s[i] != '{') ==> rest == s[1..] by {
          if forall i | 0 <= i < |s| :: s[i] != '{' {
            assert forall i | 0 <= i < |s[1..]| :: s[1..][i] == s[i + 1];
          }
        }
        assert [s[0]] + s[1..] == s;
        [s[0]] + rest
  }

  /** No match starts at a character other than `{`. */
  lemma MatchAtNeedsBrace(s: string)
    requires |s| > 0 && s[0] != '{'
    ensures MatchAt(s).None?
  {
  }

  /** Where no match starts, `gsub` copies one character and moves on. */
  lemma SubstituteStep(s: string, b: map<string, Value>)
    requires |s| > 0 && MatchAt(s).None?
    ensures Substitute(s, b) == [s[0]] + Substitute(s[1..], b)
  {
  }

  /** Text with no opening brace passes through unchanged, and scanning resumes after it. */
  lemma {:induction false} SubstituteLiteral(t: string, u: string, b: map<string, Value>)
    requires forall i | 0 <= i < |t| :: t[i] != '{'
    ensures Substitute(t + u, b) == t + Substitute(u, b)
    decreases |t|
  {
    if |t| > 0 {
      var s := t + u;
      assert s[0] == t[0] && s[1..] == t[1..] + u;
      MatchAtNeedsBrace(s);
      var rest := Substitute(u, b);
      calc {
        Substitute(s, b);
        { SubstituteStep(s, b); }
        [t[0]] + Substitute(t[1..] + u, b);
        { SubstituteLiteral(t[1..], u, b); }
        [t[0]] + (t[1..] + rest);
        ([t[0]] + t[1..]) + rest;
        { assert [t[0]] + t[1..] == t; }
        t + rest;
      }
    } else {
      assert t + u == u;
    }
  }

  /** Where a match starts, `gsub` inserts its replacement and resumes after it. */
  lemma SubstituteMatchStep(s: string, b: map<string, Value>)
    requires |s| > 0 && MatchAt(s).Some?
    ensures MatchAt(s).value.Len() <= |s|
    ensures Substitute(s, b) == Replacement(MatchAt(s).value, b) + Substitute(s[MatchAt(s).value.Len()..], b)
  {
  }

  /** With nothing bound, interpolation is the identity. */
  lemma {:induction false} SubstituteUnbound(s: string)
    ensures Substitute(s, map[]) == s
    decreases |s|
  {
    if |s| > 0 {
      if MatchAt(s).Some? {
        var m := MatchAt(s).value;
        SubstituteMatchStep(s, map[]);
        assert Replacement(m, map[]) == s[..m.Len()];
        SubstituteUnbound(s[m.Len()..]);
        assert s[..m.Len()] + s[m.Len()..] == s;
      } else {
        SubstituteStep(s, map[]);
        SubstituteUnbound(s[1..]);
        assert [s[0]] + s[1..] == s;
      }
    }
  }

  /** The text of a placeholder: `open` braces, a key, `close` braces. */
  function Placeholder(open: nat, key: string, close: nat): string
  {
    Match(open, key, close).Text()
  }

  lemma PlaceholderSlices(open: nat, key: string, close: nat, u: string)
    ensures |Placeholder(open, key, close) + u| == open + |key| + close + |u|
    ensures forall i | 0 <= i < open :: (Placeholder(open, key, close) + u)[i] == '{'
    ensures (Placeholder(open, key, close) + u)[open..open + |key|] == key
    ensures (Placeholder(open, key, close) + u)[open + |key|..] == Repeat('}', close) + u
    ensures (Placeholder(open, key, close) + u)[open + |key| + close..] == u
    ensures |key| > 0 ==> (Placeholder(open, key, close) + u)[open] == key[0]
  {
    var s := Placeholder(open, key, close) + u;
    var lhs, rhs := Repeat('{', open), Repeat('}', close);
    var rest := key + (rhs + u);
    assert s == lhs + rest;
    assert s[open..] == rest;
    forall i | 0 <= i < open ensures s[i] == '{' {
      assert s[i] == lhs[i];
    }
    assert s[open..open + |key|] == rest[..|key|];
    if |key| > 0 {
      assert s[open] == rest[0];
    }
    assert s[open + |key|..] == rest[|key|..];
    assert s[open + |key| + close..] == (rhs + u)[close..];
  }

  lemma TryOpenPlaceholder(open: nat, key: string, close: nat, u: string)
    requires 1 <= open <= 2 && 1 <= close <= 2 && IsKey(key)
    requires close == 1 ==> |u| == 0 || u[0] != '}'
    ensures open <= |Placeholder(open, key, close) + u|
    ensures TryOpen(Placeholder(open, key, close) + u, open) == Some(Match(open, key, close))
  {
    var s := Placeholder(open, key, close) + u;
    PlaceholderSlices(open, key, close, u);
    var t := s[open + |key|..];
    assert Decomposes(s, open, |key|, close) by {
      forall i | open <= i < open + |key| ensures KeyChar(s[i]) {
        assert s[i] == s[open..open + |key|][i - open];
      }
      forall i | open + |key| <= i < open + |key| + close ensures s[i] == '}' {
        assert s[i] == t[i - open - |key|];
      }
    }
    KeyRunOfDecomposition(s, open, |key|, close);
    assert t[0] == '}';
    if close == 1 {
      assert t[1..] == u;
    }
    assert CloseRun(t) == close;
  }

  lemma MatchAtPlaceholder(open: nat, key: string, close: nat, u: string)
    requires 1 <= open <= 2 && 1 <= close <= 2 && IsKey(key)
    requires close == 1 ==> |u| == 0 || u[0] != '}'
    ensures MatchAt(Placeholder(open, key, close) + u) == Some(Match(open, key, close))
  {
    var s := Placeholder(open, key, close) + u;
    TryOpenPlaceholder(open, key, close, u);
    PlaceholderSlices(open, key, close, u);
    if open == 1 {
      assert KeyChar(key[0]);
      assert s[1] != '{';
    }
  }

  /**
   The four placeholder shapes: a bound `{k}` becomes the escaped value, a
   bound `{{k}}` the raw value, and a brace-count mismatch or an unbound
   key is kept verbatim; either way scanning resumes right after it, so the
   inserted text is never scanned again.
   */
  lemma SubstitutePlaceholder(open: nat, key: string, close: nat, u: string, b: map<string, Value>)
    requires 1 <= open <= 2 && 1 <= close <= 2 && IsKey(key)
    requires close == 1 ==> |u| == 0 || u[0] != '}'
    ensures key in b && open == close == 1 ==>
      Substitute(Placeholder(open, key, close) + u, b) == Shell.Escape(ToS(b[key])) + Substitute(u, b)
    ensures key in b && open == close == 2 ==>
      Substitute(Placeholder(open, key, close) + u, b) == ToS(b[key]) + Substitute(u, b)
    ensures key !in b || open != close ==>
      Substitute(Placeholder(open, key, close) + u, b) == Placeholder(open, key, close) + Substitute(u, b)
  {
    var s := Placeholder(open, key, close) + u;
    MatchAtPlaceholder(open, key, close, u);
    assert s[Match(open, key, close).Len()..] == u;
  }

  /** The block given to `gsub`. */
  function Replacement(m: Match, b: map<string, Value>): (r: string)
    ensures m.key in b && m.open == 1 && m.close == 1 ==> Shell.Unquote(r) == Some(ToS(b[m.key]))
    ensures m.key in b && m.open == 2 && m.close == 2 ==> r == ToS(b[m.key])
    ensures !(m.key in b && m.open == m.close) ==> r == m.Text()
  {
    if m.key in b && m.open == m.close then
      Shell.EscapeRoundTrip(ToS(b[m.key]));
      if m.open < 2 then Shell.Escape(ToS(b[m.key])) else ToS(b[m.key])
    else m.Text()
  }

  /**
   The interpolation context normalised to string keys: every pair
   becomes `{k.to_s => v}` and the hashes are merged left to right, so
   the later of two pairs with the same name wins; no pairs give `{}`.
   */
  function Normalize(ps: seq<(Value, Value)>): (b: map<string, Value>)
    ensures forall i | 0 <= i < |ps| :: ToS(ps[i].0) in b
    ensures forall k | k in b :: exists i | 0 <= i < |ps| :: ToS(ps[i].0) == k
    decreases |ps|
  {
    if |ps| == 0 then map[]
    else
      var init := ps[..|ps| - 1];
      var last := ps[|ps| - 1];
      var r := Normalize(init)[ToS(last.0) := last.1];
      assert forall i | 0 <= i < |init| :: ps[i] == init[i];
      r
  }

  /** For two pairs with the same name, the later one wins. */
  lemma {:induction false} NormalizeLaterWins(ps: seq<(Value, Value)>, i: nat)
    requires i < |ps|
    requires forall j | i < j < |ps| :: ToS(ps[j].0) != ToS(ps[i].0)
    ensures ToS(ps[i].0) in Normalize(ps)
    ensures Normalize(ps)[ToS(ps[i].0)] == ps[i].1
    decreases |ps|
  {
    if i < |ps| - 1 {
      var init := ps[..|ps| - 1];
      assert init[i] == ps[i];
      forall j | i < j < |init| ensures ToS(init[j].0) != ToS(init[i].0) {
        assert init[j] == ps[j];
      }
      NormalizeLaterWins(init, i);
    }
  }

  /** `interpolate(string, interops)`. */
  function Interpolate(template: string, interops: seq<(Value, Value)>): (r: string)
    ensures (forall i | 0 <= i < |template| :: template[i] != '{') ==> r == template
    ensures |interops| == 0 ==> r == template
  {
    if |interops| == 0 then
      SubstituteUnbound(template);
      Substitute(template, Normalize(interops))
    else Substitute(template, Normalize(interops))
  }
}

=== FILE: messages.dfy ===
/**
 `Command::Runner::Message`: the immutable record describing one
 execution. Construction merges the supplied fields over the defaults;
 every accessor is a pure read.
 */
module Messages {
  import opened Wrappers
  import opened Values

  /** The executed line: a joined string, or the `[command, arguments]` pair `pass` stores. */
  datatype Line = Joined(text: string) | Pair(parts: seq<string>)

  /**
   One execution outcome. `status` stands for the backend's raw process
   status (absent is `nil`); the `time` field is not part of this model.
   */
  datatype Message = Message(
    executed: bool,
    processId: int,
    exitCode: int,
    env: OptValue,
    options: Options,
    stdout: string,
    stderr: string,
    line: Line,
    status: Option<int>)

  /** The `data` hash given to `Message.new`: each field supplied or omitted. */
  datatype Data = Data(
    executed: Option<bool>,
    processId: Option<int>,
    exitCode: Option<int>,
    env: Option<OptValue>,
    options: Option<Options>,
    stdout: Option<string>,
    stderr: Option<string>,
    line: Option<Line>,
    status: Option<Option<int>>)

  /** `{}`: no field supplied. */
  const NoData := Data(None, None, None, None, None, None, None, None, None)

  function Or<T>(o: Option<T>, default: T): T
  {
    match o
    case Some(v) => v
    case None => default
  }

  /** `Message.new(data)`: the defaults merged with `data`, supplied fields winning. */
  function New(d: Data): (m: Message)
    ensures d.executed.None? ==> !m.executed
    ensures d.processId.None? ==> m.processId == -1
    ensures d.exitCode.None? ==> m.exitCode == 0
    ensures d.env.None? ==> m.env == EmptyHash
    ensures d.options.None? ==> m.options == map[]
    ensures d.stdout.None? ==> m.stdout == "\n"
    ensures d.stderr.None? ==> m.stderr == ""
    ensures d.line.None? ==> m.line == Joined("")
    ensures d.status.None? ==> m.status == None
    ensures d.executed.Some? ==> m.executed == d.executed.value
    ensures d.processId.Some? ==> m.processId == d.processId.value
    ensures d.exitCode.Some? ==> m.exitCode == d.exitCode.value
    ensures d.env.Some? ==> m.env == d.env.value
    ensures d.options.Some? ==> m.options == d.options.value
    ensures d.stdout.Some? ==> m.stdout == d.stdout.value
    ensures d.stderr.Some? ==> m.stderr == d.stderr.value
    ensures d.line.Some? ==> m.line == d.line.value
    ensures d.status.Some? ==> m.status == d.status.value
  {
    Message(
      Or(d.executed, false),
      Or(d.processId, -1),
      Or(d.exitCode, 0),
      Or(d.env, EmptyHash),
      Or(d.options, map[]),
      Or(d.stdout, "\n"),
      Or(d.stderr, ""),
      Or(d.line, Joined("")),
      Or(d.status, None))
  }

  /** Every field of `m`, supplied. */
  function DataOf(m: Message): Data
  {
    Data(Some(m.executed), Some(m.processId), Some(m.exitCode), Some(m.env), Some(m.options),
         Some(m.stdout), Some(m.stderr), Some(m.line), Some(m.status))
  }

  /** Supplied fields override every default: a fully supplied hash rebuilds the record it came from. */
  lemma NewFromAllFields(m: Message)
    ensures New(DataOf(m)) == m
  {
  }

  /** `executed?` */
  predicate Executed(m: Message)
  {
    m.executed
  }

  /** `successful?`: success is an exit code of 0. */
  predicate Successful(m: Message)
  {
    m.exitCode == 0
  }

  /** `nonzero_exit?`, which is exactly the negation of `successful?`. */
  function NonzeroExit(m: Message): (r: bool)
    ensures r == !Successful(m)
  {
    m.exitCode != 0
  }

  /** `no_command?`: exit code 127, which implies a nonzero exit. */
  function NoCommand(m: Message): (r: bool)
    ensures r ==> NonzeroExit(m) && !Successful(m)
    ensures r <==> m.exitCode == 127
  {
    m.exitCode == 127
  }

  /** `Message.error(line)`: the record for a command that was not found. */
  function Error(line: Line): (m: Message)
    ensures NoCommand(m) && !Successful(m) && NonzeroExit(m)
    ensures !Executed(m) && m.line == line
    ensures m.processId == -1 && m.stdout == "\n" && m.stderr == ""
    ensures m.env == EmptyHash && m.options == map[] && m.status == None
  {
    New(NoData.(line := Some(line), exitCode := Some(127)))
  }
}

=== FILE: messenger.dfy ===
/**
 `Runner::Messenger`, the older form of the runner: the same template
 interpolation and `contents`, a path (its name for a backend) chosen
 from PosixSpawn, Spawn, then Fake, and a `pass` that forwards to the
 path without mapping errors.
 */
module Messenger {
  import opened Wrappers
  import opened Values
  import opened Messages
  import opened Interpolation
  import Backends
  import CommandRunner
  import Selection

  /** The path classes `best_path` chooses from. */
  datatype PathKind = PosixSpawnPath | SpawnPath | FakePath

  /** What `Paths::PosixSpawn.available?` and `Paths::Spawn.available?` report. */
  datatype PathProbe = PathProbe(posixSpawn: bool, spawn: bool)

  /** `best_path`: PosixSpawn, then Spawn, and otherwise Fake. */
  function BestPath(p: PathProbe): (k: PathKind)
    ensures p.posixSpawn ==> k == PosixSpawnPath
    ensures !p.posixSpawn && p.spawn ==> k == SpawnPath
    ensures !p.posixSpawn && !p.spawn ==> k == FakePath
  {
    var chain := [(PosixSpawnPath, p.posixSpawn), (SpawnPath, p.spawn)];
    var k := Selection.FirstAvailable(chain, FakePath);
    if p.posixSpawn then
      assert chain[0].1;
      k
    else if p.spawn then
      assert chain[1].1;
      k
    else k
  }

  /** A messenger: `Messenger.new(command, arguments, options)` and the path set through `path=`. */
  datatype Messenger = Messenger(command: string, arguments: string, options: Options, path: Option<PathKind>)

  /** The class-level `path`: the cached default, computed by `best_path` on first use. */
  function ClassPath(slot: Option<PathKind>, p: PathProbe): (r: (PathKind, Option<PathKind>))
    ensures slot.Some? ==> r == (slot.value, slot)
    ensures slot.None? ==> r == (BestPath(p), Some(BestPath(p)))
  {
    Selection.Lazy(slot, BestPath(p))
  }

  /** The instance `path`: the instance's own path when set, else the class default. */
  function InstancePath(m: Messenger, slot: Option<PathKind>, p: PathProbe): (r: (PathKind, Option<PathKind>))
    ensures m.path.Some? ==> r == (m.path.value, slot)
    ensures m.path.None? ==> r == ClassPath(slot, p)
  {
    Selection.Resolve(m.path, slot, BestPath(p))
  }

  /** `contents(interops)`: the command, untouched, and the interpolated arguments. */
  function Contents(m: Messenger, interops: seq<(Value, Value)>): (c: seq<string>)
    ensures |c| == 2 && c[0] == m.command && c[1] == Interpolate(m.arguments, interops)
  {
    [m.command, Interpolate(m.arguments, interops)]
  }

  /** The messenger and the runner interpolate alike: same template, same context, same contents. */
  lemma ContentsAgree(m: Messenger, interops: seq<(Value, Value)>)
    ensures Contents(m, interops) == CommandRunner.Contents(CommandRunner.Runner(m.command, m.arguments, m.options, None), interops)
  {
  }

  /**
   `pass(interops, options)`: the call handed to the path, and what the
   path's execution yields (`external`), passed back with no error
   mapping: an `Errno::ENOENT` reaches the caller as it is.
   */
  function Pass(m: Messenger, interops: seq<(Value, Value)>, options: Options,
                external: Result<Message, Backends.Error>): (r: (Backends.Request, Result<Message, Backends.Error>))
    ensures r.0.command == m.command && r.0.arguments == Backends.Word(Interpolate(m.arguments, interops))
    ensures r.0.env == SplitEnv(options).0
    ensures EnvKey !in r.0.options && r.0.options.Keys == options.Keys - {EnvKey}
    ensures forall k | k in r.0.options :: r.0.options[k] == options[k]
    ensures external.Failure? ==> r.1.Failure? && r.1.error == external.error
    ensures external.Success? ==> r.1 == external
  {
    var c := Contents(m, interops);
    var (env, rest) := SplitEnv(options);
    (Backends.Request(c[0], Backends.Word(c[1]), env, rest), external)
  }

  /**
   The messenger hands its path the same call as `Command::Runner#pass!`
   hands its backend, but where `pass!` turns `Errno::ENOENT` into
   `NoCommandError`, the messenger lets it through.
   */
  lemma PassLikeRunnerButUnmapped(m: Messenger, interops: seq<(Value, Value)>, options: Options,
                                  b: Backends.Backend, reason: string)
    requires !Backends.IsFake(b.kind)
    ensures var r := CommandRunner.Runner(m.command, m.arguments, m.options, None);
      Pass(m, interops, options, Failure(Backends.Enoent(reason))).0 == CommandRunner.PassRequest(r, interops, options)
    ensures var r := CommandRunner.Runner(m.command, m.arguments, m.options, None);
      && Pass(m, interops, options, Failure(Backends.Enoent(reason))).1 == Failure(Backends.Enoent(reason))
      && CommandRunner.PassBang(r, b, interops, options, Failure(Backends.Enoent(reason))).1
         == Failure(Backends.NoCommandError(m.command))
  {
  }
}

=== FILE: selection.dfy ===
/**
 The two selection patterns shared by `Command::Runner` (backends) and
 `Runner::Messenger` (paths): a first-available preference chain, and an
 instance override in front of a lazily computed, cached class default.
 */
module Selection {
  import opened Wrappers

  /** The first candidate whose availability flag is set, or `fallback` when none is. */
  function FirstAvailable<K>(chain: seq<(K, bool)>, fallback: K): (k: K)
    ensures (forall i | 0 <= i < |chain| :: !chain[i].1) ==> k == fallback
    ensures (exists i | 0 <= i < |chain| :: chain[i].1) ==>
      exists i | 0 <= i < |chain| :: chain[i].1 && k == chain[i].0 && forall j | 0 <= j < i :: !chain[j].1
    decreases |chain|
  {
    if |chain| == 0 then fallback
    else if chain[0].1 then chain[0].0
    else
      var k := FirstAvailable(chain[1..], fallback);
      assert forall i | 1 <= i < |chain| :: chain[i] == chain[1..][i - 1];
      k
  }

  /**
   `@slot ||= computed`: the cached value when there is one; otherwise
   `computed`, which is then cached. Returns the value and the new slot.
   */
  function Lazy<T>(slot: Option<T>, computed: T): (r: (T, Option<T>))
    ensures r.1 == Some(r.0)
    ensures slot.Some? ==> r.0 == slot.value
    ensures slot.None? ==> r.0 == computed
  {
    match slot
    case Some(v) => (v, slot)
    case None => (computed, Some(computed))
  }

  /** Once filled, the slot answers every later request with the same value, whatever would be computed then. */
  lemma LazyComputesOnce<T>(slot: Option<T>, computed: T, later: T)
    ensures Lazy(Lazy(slot, computed).1, later) == Lazy(slot, computed)
  {
  }

  /** `@override || self.class.default`: the instance override wins, else the cached class default. */
  function Resolve<T>(override: Option<T>, slot: Option<T>, computed: T): (r: (T, Option<T>))
    ensures override.Some? ==> r == (override.value, slot)
    ensures override.None? ==> r == Lazy(slot, computed)
  {
    match override
    case Some(v) => (v, slot)
    case None => Lazy(slot, computed)
  }
}

=== FILE: shell.dfy ===
/**
 Shell quoting. `Escape` is Ruby's `Shellwords.escape`: it turns an
 arbitrary string into one word that a POSIX shell reads back literally.
 `Unquote` is the partner: how a shell reads such a word under the
 quoting rules of IEEE Std 1003.1, Shell Command Language, section 2.2
 (2.2.1 escape character, 2.2.2 single quotes).
 */
module Shell {
  import opened Wrappers

  predicate AsciiAlnum(c: char)
  {
    'a' <= c <= 'z' || 'A' <= c <= 'Z' || '0' <= c <= '9'
  }

  /** Characters `Shellwords.escape` leaves alone. */
  predicate SafeChar(c: char)
  {
    AsciiAlnum(c) || c == '_' || c == '-' || c == '.' || c == ',' || c == ':' || c == '+' || c == '/' || c == '@'
  }

  /**
   Characters a shell interprets when they appear unquoted
   (section 2.2: metacharacters, quoting characters, and those that are
   special in some contexts, plus the brace reserved words).
   */
  predicate ShellSpecial(c: char)
  {
    || c == '|' || c == '&' || c == ';' || c == '<' || c == '>' || c == '(' || c == ')'
    || c == '$' || c == '`' || c == '\\' || c == '"' || c == '\'' || c == ' ' || c == '\t' || c == '\n'
    || c == '*' || c == '?' || c == '[' || c == '#' || c == '~' || c == '=' || c == '%' || c == '{' || c == '}'
  }

  /** How one character is quoted: safe characters stay, a newline is single-quoted, anything else is backslash-prefixed. */
  function EscapeChar(c: char): string
  {
    if SafeChar(c) then [c]
    else if c == '\n' then "'\n'"
    else ['\\', c]
  }

  function EscapeChars(s: string): string
    decreases |s|
  {
    if |s| == 0 then "" else EscapeChar(s[0]) + EscapeChars(s[1..])
  }

  /** A string of safe characters is its own quoting. */
  lemma {:induction false} EscapeCharsSafe(s: string)
    requires forall i | 0 <= i < |s| :: SafeChar(s[i])
    ensures EscapeChars(s) == s
    decreases |s|
  {
    if |s| > 0 {
      EscapeCharsSafe(s[1..]);
    }
  }

  /** Quoting works character by character, so it distributes over concatenation. */
  lemma {:induction false} EscapeCharsAppend(a: string, b: string)
    ensures EscapeChars(a + b) == EscapeChars(a) + EscapeChars(b)
    decreases |a|
  {
    if |a| == 0 {
      assert a + b == b;
    } else {
      assert (a + b)[0] == a[0] && (a + b)[1..] == a[1..] + b;
      EscapeCharsAppend(a[1..], b);
    }
  }

  /** `Shellwords.escape`: the empty string becomes `''`. */
  function Escape(s: string): (r: string)
    ensures |r| > 0
  {
    if |s| == 0 then "''" else EscapeChars(s)
  }

  /** A non-empty string of safe characters is its own escape. */
  lemma EscapeSafe(s: string)
    requires |s| > 0 && forall i | 0 <= i < |s| :: SafeChar(s[i])
    ensures Escape(s) == s
  {
    EscapeCharsSafe(s);
  }

  /** Index of the first single quote in `w`, if any. */
  function QuoteEnd(w: string): (r: Option<nat>)
    ensures r.Some? ==> r.value < |w| && w[r.value] == '\''
    ensures r.Some? ==> forall i | 0 <= i < r.value :: w[i] != '\''
    ensures r.None? ==> forall i | 0 <= i < |w| :: w[i] != '\''
    decreases |w|
  {
    if |w| == 0 then None
    else if w[0] == '\'' then Some(0)
    else match QuoteEnd(w[1..])
      case None => None
      case Some(j) => Some(j + 1)
  }

  function Prefix(p: string, r: Option<string>): Option<string>
  {
    match r
    case None => None
    case Some(t) => Some(p + t)
  }

  /**
   The single literal word a shell reads from `w`, or None when `w` is not
   one: an unquoted special character, a trailing backslash, or an
   unterminated single quote. A backslash keeps the next character
   literally, except that backslash-newline is a line continuation and
   disappears; single quotes keep everything up to the next single quote.
   */
  function Unquote(w: string): Option<string>
    decreases |w|
  {
    if |w| == 0 then Some("")
    else if w[0] == '\\' then
      if |w| == 1 then None
      else if w[1] == '\n' then Unquote(w[2..])
      else Prefix([w[1]], Unquote(w[2..]))
    else if w[0] == '\'' then
      match QuoteEnd(w[1..])
      case None => None
      case Some(j) => Prefix(w[1..j + 1], Unquote(w[j + 2..]))
    else if ShellSpecial(w[0]) then None
    else Prefix([w[0]], Unquote(w[1..]))
  }

  lemma UnquoteSafeChar(c: char, rest: string)
    requires SafeChar(c)
    ensures Unquote([c] + rest) == Prefix([c], Unquote(rest))
  {
    var w := [c] + rest;
    assert w[0] == c && w[1..] == rest;
    assert !ShellSpecial(c);
  }

  lemma UnquoteQuotedNewline(rest: string)
    ensures Unquote("'\n'" + rest) == Prefix("\n", Unquote(rest))
  {
    var w := "'\n'" + rest;
    assert w[0] == '\'' && w[1..] == "\n'" + rest;
    assert QuoteEnd(w[1..]) == Some(1) by {
      assert w[1..][1..] == "'" + rest;
    }
    assert w[1..2] == "\n" && w[3..] == rest;
  }

  lemma UnquoteBackslashed(c: char, rest: string)
    requires c != '\n'
    ensures Unquote(['\\', c] + rest) == Prefix([c], Unquote(rest))
  {
    var w := ['\\', c] + rest;
    assert w[0] == '\\' && w[1] == c && w[2..] == rest;
  }

  /** The shell reads one escaped character back as that character. */
  lemma UnquoteEscapeChar(c: char, rest: string)
    ensures Unquote(EscapeChar(c) + rest) == Prefix([c], Unquote(rest))
  {
    if SafeChar(c) {
      UnquoteSafeChar(c, rest);
    } else if c == '\n' {
      UnquoteQuotedNewline(rest);
    } else {
      UnquoteBackslashed(c, rest);
    }
  }

  lemma {:induction false} UnquoteEscapeChars(s: string)
    ensures Unquote(EscapeChars(s)) == Some(s)
    decreases |s|
  {
    if |s| > 0 {
      UnquoteEscapeChar(s[0], EscapeChars(s[1..]));
      UnquoteEscapeChars(s[1..]);
      assert [s[0]] + s[1..] == s;
    }
  }

  /** Round trip: whatever `Escape` produces, a shell reads back as exactly the original string, as one word. */
  lemma EscapeRoundTrip(s: string)
    ensures Unquote(Escape(s)) == Some(s)
  {
    if |s| == 0 {
      var w := Escape(s);
      assert w == "''";
      assert w[0] == '\'' && w[1..] == "'" && w[2..] == "";
      assert QuoteEnd(w[1..]) == Some(0);
      assert w[1..1] == "" && Unquote(w[2..]) == Some("");
      assert Unquote(w) == Prefix("", Some(""));
      assert "" + "" == "" && s == "";
    } else {
      UnquoteEscapeChars(s);
    }
  }

  /** The characters the tests pin: backtick, space and braces get a backslash; alphanumerics stay. */
  lemma EscapePinned(c: char)
    ensures c == '`' || c == ' ' || c == '{' || c == '}' ==> EscapeChar(c) == ['\\', c]
    ensures AsciiAlnum(c) ==> EscapeChar(c) == [c]
  {
  }

  lemma EscapeCharsSingle(c: char)
    ensures EscapeChars([c]) == EscapeChar(c)
  {
    assert [c][1..] == [];
  }

  /** A character followed by letters and digits: only the character can need quoting. */
  lemma EscapeCharsLead(c: char, w: string)
    requires forall i | 0 <= i < |w| :: AsciiAlnum(w[i])
    ensures EscapeChars([c] + w) == EscapeChar(c) + w
  {
    EscapeCharsAppend([c], w);
    EscapeCharsSafe(w);
    EscapeCharsSingle(c);
  }

  /** Two words between backticks, separated by a space: every backtick and the space are quoted. */
  lemma EscapeCharsBackticked(w1: string, w2: string)
    requires forall i | 0 <= i < |w1| :: AsciiAlnum(w1[i])
    requires forall i | 0 <= i < |w2| :: AsciiAlnum(w2[i])
    ensures EscapeChars(['`'] + w1 + ([' '] + w2 + ['`'])) == ['\\', '`'] + w1 + (['\\', ' '] + w2 + ['\\', '`'])
  {
    EscapePinned('`');
    EscapePinned(' ');
    var a, b := ['`'] + w1, [' '] + w2;
    EscapeCharsAppend(a, b + ['`']);
    EscapeCharsAppend(b, ['`']);
    EscapeCharsLead('`', w1);
    EscapeCharsLead(' ', w2);
    EscapeCharsSingle('`');
  }

  /*
   The lemmas about the values the specs use take the literal as a
   parameter fixed by `requires`, not written into the ensures. A literal
   argument in a contract lets the verifier unfold `EscapeChars` on it
   character by character wherever the lemma is in scope, which makes
   unrelated proofs slow; through a parameter it is unfolded only here,
   by the step lemmas above.
   */
  lemma EscapeCharsBadValue(x: string)
    requires x == "`bad value`"
    ensures EscapeChars(x) == "\\`bad\\ value\\`"
  {
    var w1, w2 := "bad", "value";
    assert forall i | 0 <= i < |w1| :: AsciiAlnum(w1[i]);
    assert forall i | 0 <= i < |w2| :: AsciiAlnum(w2[i]);
    EscapeCharsBackticked(w1, w2);
    assert x == ['`'] + w1 + ([' '] + w2 + ['`']);
    assert ['\\', '`'] + w1 + (['\\', ' '] + w2 + ['\\', '`']) == "\\`bad\\ value\\`";
  }

  /** Backticks and the space are quoted, so the value cannot run a command substitution. */
  lemma EscapeBadValue(x: string)
    requires x == "`bad value`"
    ensures Escape(x) == "\\`bad\\ value\\`"
  {
    EscapeCharsBadValue(x);
  }

  /** A word between braces: both braces are quoted. */
  lemma EscapeCharsBraced(w: string)
    requires forall i | 0 <= i < |w| :: AsciiAlnum(w[i])
    ensures EscapeChars(['{'] + w + ['}']) == ['\\', '{'] + w + ['\\', '}']
  {
    EscapePinned('{');
    EscapePinned('}');
    EscapeCharsAppend(['{'] + w, ['}']);
    EscapeCharsLead('{', w);
    EscapeCharsSingle('}');
  }

  lemma EscapeCharsBraces(x: string)
    requires x == "{other}"
    ensures EscapeChars(x) == "\\{other\\}"
  {
    var w := "other";
    assert forall i | 0 <= i < |w| :: AsciiAlnum(w[i]);
    EscapeCharsBraced(w);
    assert x == ['{'] + w + ['}'];
    assert ['\\', '{'] + w + ['\\', '}'] == "\\{other\\}";
  }

  /** Braces are quoted, so an escaped value never reads as a placeholder. */
  lemma EscapeBraces(x: string)
    requires x == "{other}"
    ensures Escape(x) == "\\{other\\}"
  {
    EscapeCharsBraces(x);
  }

  lemma EscapeAlnumWord(x: string)
    requires x == "test"
    ensures Escape(x) == x
  {
    assert forall i | 0 <= i < |x| :: AsciiAlnum(x[i]);
    EscapeSafe(x);
  }
}

=== FILE: template_examples.dfy ===
/** The interpolation cases exercised by the runner's specs, on the template `some {interpolation}` and its variants. */
module TemplateExamples {
  import opened Values
  import opened Interpolation
  import Shell

  /** The context `{interpolation: v}`. */
  function Bind(v: string): seq<(Value, Value)>
  {
    [(Sym("interpolation"), Str(v))]
  }

  lemma BindNormalizes(v: string)
    ensures Normalize(Bind(v)) == map["interpolation" := Str(v)]
  {
  }

  /**
   `some ` followed by one placeholder for the key `interpolation`. The
   placeholder is followed by an empty rest so that the template has the
   `placeholder + rest` shape `SubstitutePlaceholder` is stated for.
   */
  function Template(open: nat, close: nat): string
  {
    "some " + (Placeholder(open, "interpolation", close) + "")
  }

  lemma SubstituteTemplate(open: nat, close: nat, b: map<string, Value>)
    requires 1 <= open <= 2 && 1 <= close <= 2
    ensures Substitute(Template(open, close), b) == "some " + Replacement(Match(open, "interpolation", close), b)
  {
    assert IsKey("interpolation");
    SubstituteLiteral("some ", Placeholder(open, "interpolation", close) + "", b);
    SubstitutePlaceholder(open, "interpolation", close, "", b);
  }

  lemma BraceRuns()
    ensures Repeat('{', 1) == "{" && Repeat('{', 2) == "{{"
    ensures Repeat('}', 1) == "}" && Repeat('}', 2) == "}}"
  {
  }

  /*
   The literal templates and values of the specs enter the lemmas below
   through parameters fixed by `requires`. Written as literal arguments,
   they would let the verifier unfold `Substitute` and `Escape` on them
   character by character, which makes the proofs slow and unstable.
   */
  lemma SingleTemplate(t: string)
    requires t == "some {interpolation}"
    ensures t == Template(1, 1)
  {
    var key := "interpolation";
    assert Placeholder(1, key, 1) == "{" + key + "}" by {
      BraceRuns();
    }
    assert t == "some " + ("{" + key + "}" + "");
  }

  lemma DoubleTemplate(t: string)
    requires t == "some {{interpolation}}"
    ensures t == Template(2, 2)
  {
    var key := "interpolation";
    assert Placeholder(2, key, 2) == "{{" + key + "}}" by {
      BraceRuns();
    }
    assert t == "some " + ("{{" + key + "}}" + "");
  }

  lemma MismatchTemplate(t: string)
    requires t == "some {{interpolation}"
    ensures t == Template(2, 1)
  {
    var key := "interpolation";
    assert Placeholder(2, key, 1) == "{{" + key + "}" by {
      BraceRuns();
    }
    assert t == "some " + ("{{" + key + "}" + "");
  }

  /** `{k}` with k bound to a string: the escaped string. */
  lemma SingleBraceBound(t: string, ps: seq<(Value, Value)>, v: string)
    requires t == "some {interpolation}"
    requires "interpolation" in Normalize(ps) && Normalize(ps)["interpolation"] == Str(v)
    ensures Interpolate(t, ps) == "some " + Shell.Escape(v)
  {
    SingleTemplate(t);
    SubstituteTemplate(1, 1, Normalize(ps));
  }

  /** `{k}` with k bound: the escaped value; `"test"` is unchanged and `` "`bad value`" `` is quoted. */
  lemma SingleBrace(t: string, v: string)
    requires t == "some {interpolation}"
    ensures Interpolate(t, Bind(v)) == "some " + Shell.Escape(v)
  {
    BindNormalizes(v);
    SingleBraceBound(t, Bind(v), v);
  }

  lemma SingleBraceTest(t: string, v: string)
    requires t == "some {interpolation}" && v == "test"
    ensures Interpolate(t, Bind(v)) == "some test"
  {
    SingleBrace(t, v);
    Shell.EscapeAlnumWord(v);
  }

  lemma SingleBraceBadValue(t: string, v: string)
    requires t == "some {interpolation}" && v == "`bad value`"
    ensures Interpolate(t, Bind(v)) == "some \\`bad\\ value\\`"
  {
    SingleBrace(t, v);
    Shell.EscapeBadValue(v);
  }

  /** `{{k}}` with k bound: the raw value. */
  lemma DoubleBrace(t: string, v: string)
    requires t == "some {{interpolation}}"
    ensures Interpolate(t, Bind(v)) == "some " + v
  {
    DoubleTemplate(t);
    BindNormalizes(v);
    SubstituteTemplate(2, 2, Normalize(Bind(v)));
  }

  lemma DoubleBraceBadValue(t: string, v: string)
    requires t == "some {{interpolation}}" && v == "`bad value`"
    ensures Interpolate(t, Bind(v)) == "some `bad value`"
  {
    DoubleBrace(t, v);
    assert "some " + v == "some `bad value`" by {
      assert v == "`bad value`";
    }
  }

  /** The context `{interpolation: "{other}", other: "hi"}`. */
  function BindTwo(): seq<(Value, Value)>
  {
    Bind("{other}") + [(Sym("other"), Str("hi"))]
  }

  lemma BindTwoNormalizes(ps: seq<(Value, Value)>)
    requires ps == BindTwo()
    ensures "interpolation" in Normalize(ps) && Normalize(ps)["interpolation"] == Str("{other}")
  {
    assert ToS(ps[0].0) == "interpolation" && ToS(ps[1].0) == "other";
    NormalizeLaterWins(ps, 0);
  }

  /** A value that looks like a placeholder is escaped, and not expanded, even though `other` is bound. */
  lemma NoRescan(t: string, ps: seq<(Value, Value)>)
    requires t == "some {interpolation}" && ps == BindTwo()
    ensures Interpolate(t, ps) == "some \\{other\\}"
  {
    var v := "{other}";
    BindTwoNormalizes(ps);
    SingleBraceBound(t, ps, v);
    EscapedOther(v);
  }

  lemma EscapedOther(v: string)
    requires v == "{other}"
    ensures "some " + Shell.Escape(v) == "some \\{other\\}"
  {
    Shell.EscapeBraces(v);
    assert "some " + "\\{other\\}" == "some \\{other\\}";
  }

  /** `{{k}` is kept verbatim although k is bound. */
  lemma Mismatch(t: string, v: string)
    requires t == "some {{interpolation}"
    ensures Interpolate(t, Bind(v)) == t
  {
    MismatchTemplate(t);
    SubstituteTemplate(2, 1, Normalize(Bind(v)));
  }
}

=== FILE: values.dfy ===
/**
 Ruby values as the interpolator and the option hashes see them: the
 scalar objects that appear as interpolation keys and values, their
 `to_s`, and the option hashes that carry `:env`.
 */
module Values {

  /** A scalar Ruby object. */
  datatype Value = Str(s: string) | Sym(name: string) | Int(i: int) | Bool(b: bool) | Nil

  /** The decimal digit for `d`. */
  function DigitChar(d: nat): (c: char)
    requires d < 10
    ensures IsDigit(c) && c as int - '0' as int == d
  {
    ('0' as int + d) as char
  }

  predicate IsDigit(c: char)
  {
    '0' <= c <= '9'
  }

  /** A non-empty run of decimal digits. */
  predicate IsDecimal(s: string)
  {
    |s| > 0 && forall i | 0 <= i < |s| :: IsDigit(s[i])
  }

  /** The number a run of decimal digits denotes, read most significant digit first. */
  function DigitsValue(s: string): nat
    requires forall i | 0 <= i < |s| :: IsDigit(s[i])
    decreases |s|
  {
    if |s| == 0 then 0
    else
      var init := s[..|s| - 1];
      assert forall i | 0 <= i < |init| :: IsDigit(init[i]) by {
        forall i | 0 <= i < |init| ensures IsDigit(init[i]) {
          assert init[i] == s[i];
        }
      }
      var d := s[|s| - 1] as int - '0' as int;
      assert IsDigit(s[|s| - 1]);
      DigitsValue(init) * 10 + d
  }

  /** Decimal digits of a natural number, most significant first, with no leading zero. */
  function NatToS(n: nat): (r: string)
    ensures IsDecimal(r)
    ensures |r| > 1 ==> r[0] != '0'
    ensures r[0] == '0' <==> n == 0
    decreases n
  {
    if n < 10 then [DigitChar(n)] else NatToS(n / 10) + [DigitChar(n % 10)]
  }

  /** Reading the digits back gives the number. */
  lemma {:induction false} NatToSRoundTrip(n: nat)
    ensures DigitsValue(NatToS(n)) == n
    decreases n
  {
    if n >= 10 {
      var r := NatToS(n);
      assert r[..|r| - 1] == NatToS(n / 10);
      NatToSRoundTrip(n / 10);
    }
  }

  /** Ruby's `to_s` on a scalar: integers in decimal with a leading `-` when negative. */
  function ToS(v: Value): (r: string)
    ensures v.Str? ==> r == v.s
    ensures v.Sym? ==> r == v.name
    ensures v.Int? && v.i >= 0 ==> IsDecimal(r) && DigitsValue(r) == v.i && (|r| > 1 ==> r[0] != '0')
    ensures v.Int? && v.i < 0 ==> |r| > 1 && r[0] == '-' && IsDecimal(r[1..]) && DigitsValue(r[1..]) == -v.i && r[1] != '0'
    ensures v.Bool? ==> r == (if v.b then "true" else "false")
    ensures v.Nil? ==> r == ""
  {
    match v
    case Str(s) => s
    case Sym(n) => n
    case Int(i) =>
      if i < 0 then
        NatToSRoundTrip(-i);
        var r := "-" + NatToS(-i);
        assert r[1..] == NatToS(-i);
        r
      else
        NatToSRoundTrip(i);
        NatToS(i)
    case Bool(b) => if b then "true" else "false"
    case Nil => ""
  }

  /** A value stored in an option hash: a scalar or a nested hash (such as `:env`). */
  datatype OptValue = Scalar(v: Value) | Hash(entries: map<Value, Value>)

  /** An option hash. */
  type Options = map<Value, OptValue>

  /** Ruby truthiness: everything except `nil` and `false`. */
  predicate Truthy(o: OptValue)
  {
    o != Scalar(Nil) && o != Scalar(Bool(false))
  }

  /** The `:env` key; a string key `"env"` is a different key. */
  const EnvKey: Value := Sym("env")

  /** The empty hash `{}`. */
  const EmptyHash: OptValue := Hash(map[])

  /**
   `env = options.delete(:env) || {}` followed by the use of `options`:
   the environment to forward, and the options with `:env` removed.
   */
  function SplitEnv(opts: Options): (r: (OptValue, Options))
    ensures EnvKey !in r.1
    ensures r.1.Keys == opts.Keys - {EnvKey}
    ensures forall k :: k in r.1 ==> r.1[k] == opts[k]
    ensures EnvKey in opts && Truthy(opts[EnvKey]) ==> r.0 == opts[EnvKey]
    ensures !(EnvKey in opts && Truthy(opts[EnvKey])) ==> r.0 == EmptyHash
  {
    var env := if EnvKey in opts && Truthy(opts[EnvKey]) then opts[EnvKey] else EmptyHash;
    (env, opts - {EnvKey})
  }

  /** Splitting off a truthy `:env` loses nothing: putting it back restores the hash. */
  lemma SplitEnvRestores(opts: Options)
    requires EnvKey in opts && Truthy(opts[EnvKey])
    ensures SplitEnv(opts).1[EnvKey := SplitEnv(opts).0] == opts
  {
    var (e, rest) := SplitEnv(opts);
    assert rest[EnvKey := e].Keys == opts.Keys;
  }
}

=== FILE: wrappers.dfy ===
/** Option and Result types shared by the model. */
module Wrappers {

  /** A value that may be absent (Ruby's `nil`). */
  datatype Option<+T> = None | Some(value: T)

  /** Either a returned value or a raised error. */
  datatype Result<+R, +E> = Success(value: R) | Failure(error: E)
}
